=== FILE: README.md ===
# Accounts, sessions and profiles of a small multi-user web app

This project models the authentication and session bookkeeping of a small Flask
web service. Users register, log in, log out, and edit or delete their profile.
Four stores must stay in step:

- **accounts**: the sqlite `accounts` table, a map from user name to (salted
  hash, salt, row id);
- **profiles**: the sqlite `profiles` table, a map from row id to (first name,
  last name, avatar, files directory);
- **tokens**: the redis store, a map from user name to the current session token;
- **the session cache**: the process-wide `logged_in` dictionary, a map from token
  to `Option<Profile>`.

Every operation is a pure function over immutable values. The storage functions
of `db_manager` map an old `Db` to a new one (`DbManager`). The Flask route
handlers map a `State` (the stores plus the cache) to a new `State` and a
`Response` (`App`). A response is a page plus a cookie instruction. The page is
a redirect, the login template with an optional error, the profile template,
plain text, or `ServerError` for an uncaught exception.

Modules:

- `Wrappers`: `Option`.
- `Models`: the `Account` and `Profile` records, their constructor defaults, and
  the non-filesystem fields of `jsonify`.
- `PathText`: `str.split`/`str.join` on one separator, the upload's extension,
  and the avatar path.
- `DbManager`: salts, password encoding, the account, profile and token
  operations, and the `Consistent` invariant over the two tables.
- `App`: `error_message_get` and the `home`, `login`, `logout` and
  `user_profile` handlers; `Serve` dispatches a `Request` to them.
- `Sessions`: lemmas that relate the handlers. They cover the auth round trip,
  token supersession, logout, the profile actions, and the preservation of
  `Consistent`.

How the model treats the system's external parts:

- **SHA-256**: a parameter `h: string -> string`. It stays uninterpreted. Where a
  property needs "one salt never encodes two passwords alike", `Injective(h)`
  is an explicit hypothesis.
- **Randomness**: passed in through `Choices`.
  - The salt comes from ten `random.choice` outcomes, each a position below 36 in
    the alphabet `0-9a-z`.
  - The row id that sqlite assigns is a value no existing account uses.
  - The `uuid4().hex` token is 32 lower-case hex digits, and it is neither a key of
    the cache nor a stored token.
- **Failures**: a handler that would raise (`KeyError`, `IndexError`,
  `AttributeError`, `TypeError`) answers `ServerError`. State changes made
  before the raise remain. For example, the name action rewrites the cached
  profile before the account lookup can fail. The `db_manager` functions carry
  the raises that happen before any write as preconditions:
  - `account_update_password` (`__init__.py:122`);
  - `profile_update` (`__init__.py:145`);
  - `profile_delete` (`__init__.py:170`, `174`).
- **The raise after the commit in `profile_delete`**: once both rows are
  deleted and committed, `os.path.exists(avatar)` (`__init__.py:186`) raises a
  `TypeError` when the avatar column is NULL. That is the case for every user
  who never uploaded a picture. `ProfileDelete` returns the new tables together
  with a flag for this raise. On that flag the delete action answers
  `ServerError` with the rows gone, and the token deletion and session end
  (`app.py:146-149`) never happen.

Legacy behaviours kept as written:

- A profile POST checks only that the caller's cookie has a cached session. It
  does not check that the session belongs to `<user>`. Ownership
  (`token == token_get(user)`) only decides whether the edit options show on a
  GET.
- With a cookie, the profile page shows the caller's own cached profile, even on
  another user's page.
- A new login replaces the user's stored token. The old token's cache entry
  stays, so the old session can still post.
- Logout and delete set the cache entry to `None` instead of removing it.
- The profile row is inserted with only `userid` and `files`. Right after
  registration the stored first name, last name and avatar are NULL (`None`).
  The profile cached at registration holds the class defaults (`""`, `""`,
  `static/default.jpg`).
- On a stale token, `home` expires a cookie named by the token value, not the
  `token` cookie.
- A confirmed delete returns a plain redirect to `/`. The response it built with
  the cookie expired is never returned.
- Deleting an account needs a confirmation equal to `<user>`. The caller need
  not be `<user>`. When both of `<user>`'s rows exist, it removes the account and
  profile rows; otherwise it raises before removing anything. Only
  when `<user>` has a stored avatar does it also remove `<user>`'s token and end
  the caller's session. Without a stored avatar it raises after the rows are
  gone: the token stays stored, the session stays cached, and `home` still sends
  that cookie to the deleted user's profile page.

Further points of the code that the model keeps:

- the default avatar is `static/default.jpg`;
- a profile edit writes only the caller's cache entry, not every live entry for
  that user;
- duplicate registration is refused only by the handler's `profile_get` check.
  No store-level constraint does it.

The handlers need `Consistent(db)`:

- row ids are unique;
- every account has its profile row;
- every profile row belongs to an account.

It holds for the empty stores (`Sessions.InitConsistent`), and every request
preserves it (`Sessions.ServePreservesConsistent`).

## Model

| member | source | states |
|---|---|---|
| Models.NewAccount | db_manager/models.py:7-10 | a new Account has empty user name, password and salt |
| Models.NewProfile | db_manager/models.py:16-21 | a new Profile has empty user name, names and files, and avatar `static/default.jpg` |
| Models.Jsonify | db_manager/models.py:28-33 | the export carries user name, first name, last name and avatar verbatim |
| Models.JsonifyForgetsOnlyFiles | db_manager/models.py:28-35 | two profiles export alike iff they agree on everything but the files directory |
| PathText.Split | app.py:127 | splitting always yields at least one piece |
| PathText.SplitPieces | app.py:127 | no piece holds the separator; there is more than one piece iff the string holds the separator |
| PathText.JoinSplit | app.py:127 | joining the pieces of a split rebuilds the string |
| PathText.SplitJoin | app.py:127 | splitting a join of separator-free pieces gives the pieces back |
| PathText.Extension | app.py:127 | an extension exists iff the file name contains a dot (otherwise indexing piece 1 raises), and it holds no dot |
| PathText.ExtensionIsSecondPiece | app.py:127 | the extension is the text between the first dot and the next dot or the end |
| PathText.AvatarNameKeepsExtension | app.py:127-128 | the saved avatar name `<user>.<ext>` yields the upload's extension again, for a dot-free user name |
| DbManager.EncodeSeparatesPasswords | db_manager/__init__.py:31-33 | with an injective digest, two passwords encode alike under one salt iff they are equal |
| DbManager.CharRange | db_manager/__init__.py:37 | `range(lo, hi+1)` mapped through `chr`: hi-lo+1 characters, the i-th with code lo+i |
| DbManager.Alphanum | db_manager/__init__.py:13-16 | the salt alphabet has 36 characters, all digits or lower-case letters |
| DbManager.SaltCharIndex | db_manager/__init__.py:37 | every digit and lower-case letter occurs in the alphabet |
| DbManager.GenerateSalt | db_manager/__init__.py:35-39 | ten draws give a salt of length 10 over `0-9a-z`, each character the drawn alphabet entry |
| DbManager.SaltCoverage | db_manager/__init__.py:35-39 | every valid salt is produced by some sequence of draws |
| DbManager.EmptyDbConsistent | db_manager/__init__.py:25-26 | the freshly created empty tables are consistent |
| DbManager.AccountCreate | db_manager/__init__.py:49-84 | adds exactly one account whose hash is H(salt ++ password) with that same, valid salt and the fresh row id, plus one profile row with only the files directory set; tokens untouched; returns the default profile named after the user |
| DbManager.AccountAuth | db_manager/__init__.py:94-107 | false when the user has no account row; true only when the stored hash matches the password under the stored salt |
| DbManager.AuthAfterCreate | db_manager/__init__.py:74 | right after creation the password authenticates, and with an injective digest no other password does |
| DbManager.AccountUpdatePassword | db_manager/__init__.py:117-129 | needs the account; keeps its salt and row id, replaces its hash by H(salt ++ new password), leaves other accounts, profiles and tokens unchanged |
| DbManager.AuthAfterUpdate | db_manager/__init__.py:117-129 | after a change the new password authenticates, and with an injective digest the old one no longer does |
| DbManager.ProfileGet | db_manager/__init__.py:201-221 | a profile is returned iff both the account and its profile row exist, carrying the user name and the row's fields |
| DbManager.ProfileExistsIffAccount | db_manager/__init__.py:201-212 | in consistent tables a profile exists exactly for the existing accounts |
| DbManager.ProfileUpdate | db_manager/__init__.py:141-157 | needs the account; writes each given field, keeps each field passed as None and the files directory, and changes no other row, account or token |
| DbManager.ProfileGetAfterUpdate | db_manager/__init__.py:141-157 | seen through profile_get, the user's profile shows the patched fields and every other user's profile is unchanged |
| DbManager.ProfileDelete | db_manager/__init__.py:166-192 | needs the account and its profile row; removes exactly those two rows; tokens untouched; the cleanup after the commit raises iff the stored avatar is NULL |
| DbManager.ProfileGetAfterDelete | db_manager/__init__.py:166-212 | after deletion, raised or not, profile_get returns None and authentication fails for the user; other users' profiles are unchanged |
| DbManager.DeleteRaisesWithoutAvatar | db_manager/__init__.py:173-188 | in consistent tables the deletion raises exactly for a user whose stored profile has no avatar |
| DbManager.TokenGet | db_manager/__init__.py:254-255 | returns the stored token iff the user has one |
| DbManager.TokenCreate | db_manager/__init__.py:230-234 | afterwards token_get(user) is the returned token; other users' tokens and both tables are unchanged |
| DbManager.TokenDelete | db_manager/__init__.py:243-245 | afterwards token_get(user) is None; other users' tokens and both tables are unchanged |
| DbManager.CreatePreservesConsistent | db_manager/__init__.py:73-79 | a row id unused by the accounts is unused by the profiles, and account creation keeps the tables consistent |
| DbManager.UpdatePasswordPreservesConsistent | db_manager/__init__.py:120-124 | a password change keeps the tables consistent |
| DbManager.ProfileUpdatePreservesConsistent | db_manager/__init__.py:144-152 | a profile update keeps the tables consistent |
| DbManager.DeletePreservesConsistent | db_manager/__init__.py:169-180 | deleting an account and its profile row keeps the tables consistent |
| App.ErrorMessageGet | app.py:14-24 | codes 1 to 4 map to their four fixed messages, any other code to "please try again" |
| App.ErrorMessagesDistinct | app.py:14-24 | two codes share a message iff they are equal or both outside 1..4 |
| Sessions.InitConsistent | app.py:5 | the empty stores with an empty session cache are consistent |
| Sessions.LoginPreservesConsistent | app.py:43-81 | the login handler keeps the tables consistent |
| Sessions.LogoutPreservesConsistent | app.py:83-95 | the logout handler keeps the tables consistent |
| Sessions.ProfileActionPreservesConsistent | app.py:119-154 | every profile POST action keeps the tables consistent |
| Sessions.UserProfilePreservesConsistent | app.py:97-156 | the profile handler keeps the tables consistent |
| Sessions.ServePreservesConsistent | app.py:29-156 | every request keeps the tables consistent |
| Sessions.RegisterExistingRejected | app.py:63-65 | registering a name that has a profile yields error 2 and changes no store |
| Sessions.RegisterCreatesSession | app.py:63-76 | registering a new name adds only that account, with the password authenticating; its stored profile has NULL names and avatar; the fresh token becomes its token and is cached with the default profile; other users' tokens and stored profiles are unchanged; the cookie is set |
| Sessions.RegisteredCacheDiffersFromStore | app.py:68-74 | after registration the cached profile has the default avatar while the stored one has none |
| Sessions.LoginSucceeds | app.py:50-60 | a successful login caches the user's stored profile under the fresh token, makes it token_get(user), keeps every earlier cache entry, other tokens and both tables, and sets the cookie |
| Sessions.LoginFails | app.py:51-62 | a failed login yields error 1 and leaves all four stores unchanged |
| Sessions.LoginOtherRequestsInert | app.py:78-81 | GET shows the bare form, an unknown mode answers FAILURE; neither changes anything |
| Sessions.RegisterThenLogin | app.py:50-76 | registering and then logging in with the same credentials succeeds and the session resolves to that user |
| Sessions.TokenSupersession | app.py:55-58 | after a second login only the new token passes the ownership test of app.py:113, and the old cache entry remains and still resolves |
| Sessions.HomeRoutes | app.py:29-41 | the home page redirects a live session to its profile and anything else to /login |
| Sessions.LogoutEndsSession | app.py:85-95 | logout of a live session deletes the owner's token only, sets the cache entry to None (key kept), expires the cookie; home then redirects that token to /login |
| Sessions.LogoutWithoutSession | app.py:85-88 | logout without a live session raises and changes nothing |
| Sessions.ProfileViewIsReadOnly | app.py:100-114 | a GET with a live session changes nothing, shows the caller's cached profile, with options iff the caller's token is token_get(user) |
| Sessions.ProfileWithoutCookie | app.py:100-117 | without a cookie nothing changes: error 4 for a missing profile, otherwise the stored profile without options on GET and error 3 on POST |
| Sessions.ProfileWithEndedSession | app.py:100-105 | a cookie without a live session is redirected to / and nothing changes |
| Sessions.PasswordActionIgnoresOwnership | app.py:116-123 | any live session re-hashes user's password; afterwards exactly the new password authenticates |
| Sessions.StaleTokenStillActs | app.py:100-123 | a superseded token, though no longer the owner, can still change the password |
| Sessions.NameActionWritesThrough | app.py:135-140 | names go into the caller's cached profile and user's stored profile (a None name is cached but not stored); accounts, tokens and other users' stored profiles unchanged |
| Sessions.NameActionCrashKeepsCacheWrite | app.py:135-140 | for a user without account the action raises after the cached names were already rewritten |
| Sessions.PictureActionSetsAvatar | app.py:124-133 | the avatar becomes `static/avatars/<user>.<ext>` in the caller's cache entry and user's stored profile, and the page shows it; other cache entries, accounts, tokens, user's stored names and other users' profiles are unchanged; a dot-less file name, or a user without an account, raises and changes nothing |
| Sessions.DeleteActionRequiresConfirmation | app.py:141-156 | nothing changes unless the confirmation equals user; confirmed for a user without an account it raises and changes nothing; confirmed for a user with a stored avatar, user's account, profile and token are gone, the caller's entry is None, other users keep accounts, profiles and tokens, home redirects to /login |
| Sessions.DeleteActionRaisesWithoutAvatar | app.py:141-149 | confirmed for a user without a stored avatar, both of user's rows and no others are gone, but the request raises: tokens and cache are unchanged and home routes the caller as before |
| Sessions.RegisterThenDeleteRaises | app.py:63-76 | a user who registers and deletes their own account at once gets a server error, keeps the stored token, and is still sent by home to the deleted profile's page |

## Left out

- sqlite and redis connections, cursors and commits: the tables and the token
  store are in-memory maps. Store failures and timeouts are not modelled.
- SQL text: values are interpolated into the queries, so a name containing a
  quote breaks the query or injects SQL. The model treats every value opaquely.
- Duplicate user names in the `accounts` table: the table has no uniqueness
  constraint, but a map keyed by user name cannot hold two rows for one name.
  Account creation therefore requires a new name, and the register handler's
  check provides one in consistent tables.
- The sqlite row-id algorithm: the model takes any row id not used by an
  account. It does not fix sqlite's particular choice of one more than the
  largest.
- SHA-256 and its hex encoding: the digest is an uninterpreted parameter.
- The randomness of `random.choice` and `uuid4`: the drawn values are inputs
  constrained by predicates. Token freshness is assumed, not derived from the
  128-bit randomness.
- Filesystem effects: `os.mkdir`, `picture.save`, `os.remove`, `shutil.rmtree`,
  and the `os.listdir` listing that `jsonify` puts under "files".
- Paths: the stored files directory is the working-directory-joined absolute
  path, while the returned profile holds the relative one. Both are modelled as
  the relative `static/files/<user>/`.
- `os.path.join` semantics: the model always joins with "/" and never
  normalises. `os.path.join` discards earlier parts when a later one is
  absolute, and adds no "/" after a part that already ends in one. So for an
  empty or "/"-ending user name the source's files directory lacks the doubled
  "/" that `FilesDir` gives.
- The `user_files` route.
- Flask routing and template rendering: pages are abstract values.
- Form fields missing on login or in an action. A missing password raises a
  `TypeError` when the salt is prefixed to it: on login for an existing
  account (`__init__.py:32`), on register (`:74`), and on the password action.
  A missing username on register raises a `TypeError` in `os.path.join`
  (`:65`), before any write. A missing `picture` upload answers 400. These
  fields are modelled as always present.
- The `print` in `profile_delete`.
- The constant `True` results of the `db_manager` functions.
- Concurrency on the global dictionary, and `check_same_thread=False`.

=== FILE: app.dfy ===
/** The request handlers of app.py as transitions over the stores plus the
    process-wide session cache, each returning the new state and a response. */
module App {
  import opened Wrappers
  import opened Models
  import opened PathText
  import opened DbManager

  /** The `logged_in` dictionary: a token to the profile cached for it, or to
      `None` once that session was logged out or its account deleted. */
  type Cache = map<string, Option<Profile>>

  datatype State = State(db: Db, cache: Cache)

  /** Empty stores and an empty cache. */
  const Init: State := State(EmptyDb, map[])

  /** Name of the cookie that carries the session token. */
  const TokenCookie: string := "token"
  const RootUrl: string := "/"
  const LoginUrl: string := "/login"

  function ProfileUrl(user: string): string
  {
    "/" + user + "/profile"
  }

  // ---------------------------------------------------------------------------
  // Responses

  datatype Page =
    | Redirect(target: string)
    /** The login template, with the error message shown on it if any. */
    | LoginPage(error: Option<string>)
    /** The profile template: the exported profile and whether the edit options show. */
    | ProfilePage(profile: ProfileJson, showOptions: bool)
    | Text(text: string)
    /** An uncaught exception in the handler (HTTP 500). */
    | ServerError

  datatype CookieOp =
    | KeepCookies
    | SetCookie(name: string, value: string)
    /** Set the named cookie empty with `max_age=0`, so the client drops it. */
    | ExpireCookie(name: string)

  datatype Response = Response(page: Page, cookie: CookieOp)

  datatype Step = Step(st: State, resp: Response)

  datatype Method = Get | Post

  /** The `action` field of a profile form post, with the fields that action reads. */
  datatype Action =
    | ChangePassword(password: string)
    | ChangePicture(filename: string)
    | ChangeName(fname: Option<string>, lname: Option<string>)
    | DeleteAccount(confirmation: Option<string>)
    /** Any other or a missing `action` value. */
    | OtherAction

  datatype Request =
    | HomeRequest(cookie: Option<string>)
    | LoginRequest(verb: Method, mode: Option<string>, username: string, password: string)
    | LogoutRequest(cookie: Option<string>)
    | ProfileRequest(user: string, cookie: Option<string>, verb: Method, action: Action)

  /** The values a request may draw at random: ten salt characters, the row id
      the accounts table assigns, and a `uuid4().hex` token. */
  datatype Choices = Choices(saltPicks: seq<nat>, rowid: RowId, token: string)

  /** A drawn token is well formed and collides with no cached or stored token. */
  predicate FreshToken(st: State, token: string)
  {
    UuidHex(token) && token !in st.cache && token !in st.db.tokens.Values
  }

  /** What the environment guarantees of the draws made in state `st`. */
  predicate ChoicesFor(st: State, ch: Choices)
  {
    ValidPicks(ch.saltPicks) && ch.rowid !in RowIds(st.db.accounts) && FreshToken(st, ch.token)
  }

  // ---------------------------------------------------------------------------
  // Sessions

  /** `logged_in.get(token)`: the cached profile, `None` when the token is
      unknown or its session has ended. */
  function CachedProfile(cache: Cache, token: string): Option<Profile>
  {
    if token in cache then cache[token] else None
  }

  /** The profile of the session carried by the request's cookie, if any. */
  function Resolve(cache: Cache, cookie: Option<string>): Option<Profile>
  {
    match cookie
    case None => None
    case Some(token) => CachedProfile(cache, token)
  }

  /** The ownership test used to show the edit options: a cookie is present and
      equals the token stored for `user`. */
  predicate IsOwner(db: Db, cookie: Option<string>, user: string)
  {
    cookie.Some? && cookie == TokenGet(db, user)
  }

  function ErrorMessageGet(code: int): (msg: string)
    ensures code == 1 ==> msg == "incorrect username or password"
    ensures code == 2 ==> msg == "username already exists"
    ensures code == 3 ==> msg == "invalid request"
    ensures code == 4 ==> msg == "profile does not exist"
    ensures !(1 <= code <= 4) ==> msg == "please try again"
  {
    if code == 1 then "incorrect username or password"
    else if code == 2 then "username already exists"
    else if code == 3 then "invalid request"
    else if code == 4 then "profile does not exist"
    else "please try again"
  }

  /** Two codes share a message exactly when they are equal or both unknown. */
  lemma ErrorMessagesDistinct(a: int, b: int)
    ensures ErrorMessageGet(a) == ErrorMessageGet(b) <==> a == b || (!(1 <= a <= 4) && !(1 <= b <= 4))
  {
  }

  // ---------------------------------------------------------------------------
  // Handlers

  function Crash(): Response
  {
    Response(ServerError, KeepCookies)
  }

  function ShowProfile(p: Profile): Response
  {
    Response(ProfilePage(Jsonify(p), true), KeepCookies)
  }

  /** `GET /`: send a live session to its profile, anything else to the login page.
      For a stale token the cookie expired is the one named by the token value. */
  function Home(st: State, cookie: Option<string>): Response
  {
    match cookie
    case None => Response(Redirect(LoginUrl), KeepCookies)
    case Some(token) =>
      match CachedProfile(st.cache, token)
      case None => Response(Redirect(LoginUrl), ExpireCookie(token))
      case Some(p) => Response(Redirect(ProfileUrl(p.username)), KeepCookies)
  }

  /** `/login`: the form on GET; on POST, log in, register, or reject the mode. */
  function Login(st: State, h: Hasher, verb: Method, mode: Option<string>, username: string,
                 password: string, ch: Choices): Step
    requires Consistent(st.db) && ChoicesFor(st, ch)
  {
    if verb == Get then
      Step(st, Response(LoginPage(None), KeepCookies))
    else if mode == Some("login") then
      if AccountAuth(st.db, h, username, password) then
        var prof := ProfileGet(st.db, username);
        var (db', token) := TokenCreate(st.db, username, ch.token);
        Step(State(db', st.cache[token := prof]),
             Response(Redirect(ProfileUrl(username)), SetCookie(TokenCookie, token)))
      else
        Step(st, Response(LoginPage(Some(ErrorMessageGet(1))), KeepCookies))
    else if mode == Some("register") then
      if ProfileGet(st.db, username).Some? then
        Step(st, Response(LoginPage(Some(ErrorMessageGet(2))), KeepCookies))
      else
        ProfileExistsIffAccount(st.db, username);
        CreatePreservesConsistent(st.db, h, username, password, ch.saltPicks, ch.rowid);
        var (db1, prof) := AccountCreate(st.db, h, username, password, ch.saltPicks, ch.rowid);
        var (db2, token) := TokenCreate(db1, username, ch.token);
        Step(State(db2, st.cache[token := Some(prof)]),
             Response(Redirect(ProfileUrl(username)), SetCookie(TokenCookie, token)))
    else
      Step(st, Response(Text("FAILURE"), KeepCookies))
  }

  /** `POST /logout`: the cookie's session must be live (a missing or unknown
      token raises a `KeyError`, an ended session an `AttributeError`). */
  function Logout(st: State, cookie: Option<string>): Step
  {
    match Resolve(st.cache, cookie)
    case None => Step(st, Crash())
    case Some(p) =>
      Step(State(TokenDelete(st.db, p.username), st.cache[cookie.value := None]),
           Response(Redirect(RootUrl), ExpireCookie(TokenCookie)))
  }

  /** `/<user>/profile`. With a cookie the page shows the caller's cached profile,
      otherwise `user`'s stored one. A POST acts on `user` for any live session:
      only the existence of the caller's session is checked, not its owner. */
  function UserProfile(st: State, h: Hasher, user: string, cookie: Option<string>,
                       verb: Method, action: Action): Step
  {
    if cookie.Some? && CachedProfile(st.cache, cookie.value).None? then
      Step(st, Response(Redirect(RootUrl), KeepCookies))
    else if cookie.None? && ProfileGet(st.db, user).None? then
      Step(st, Response(LoginPage(Some(ErrorMessageGet(4))), KeepCookies))
    else
      var profile :=
        if cookie.Some? then CachedProfile(st.cache, cookie.value).value
        else ProfileGet(st.db, user).value;
      if verb == Get then
        Step(st, Response(ProfilePage(Jsonify(profile), IsOwner(st.db, cookie, user)), KeepCookies))
      else if cookie.None? then
        Step(st, Response(LoginPage(Some(ErrorMessageGet(3))), KeepCookies))
      else
        ProfileAction(st, h, user, cookie.value, profile, action)
  }

  /** The POST actions of the profile page, for the live session `token`. */
  function ProfileAction(st: State, h: Hasher, user: string, token: string, profile: Profile,
                         action: Action): Step
    requires CachedProfile(st.cache, token) == Some(profile)
  {
    match action
    case ChangePassword(password) =>
      if user !in st.db.accounts then Step(st, Crash())
      else Step(st.(db := AccountUpdatePassword(st.db, h, user, password)), ShowProfile(profile))
    case ChangePicture(filename) =>
      if Extension(filename).None? then Step(st, Crash())
      else
        var location := AvatarPath(user, Extension(filename).value);
        if user !in st.db.accounts then Step(st, Crash())
        else
          var profile' := profile.(avatar := Some(location));
          Step(State(ProfileUpdate(st.db, user, None, None, Some(location)), st.cache[token := Some(profile')]),
               ShowProfile(profile'))
    case ChangeName(fname, lname) =>
      // the cached profile is written before the store lookup that can fail
      var profile' := profile.(fname := fname, lname := lname);
      var cache' := st.cache[token := Some(profile')];
      if user !in st.db.accounts then Step(State(st.db, cache'), Crash())
      else Step(State(ProfileUpdate(st.db, user, fname, lname, None), cache'), ShowProfile(profile'))
    case DeleteAccount(confirmation) =>
      if confirmation != Some(user) then Step(st, ShowProfile(profile))
      else if user !in st.db.accounts || st.db.accounts[user].rowid !in st.db.profiles then Step(st, Crash())
      else
        var (db', raised) := ProfileDelete(st.db, user);
        // a raise in the cleanup skips the token deletion and the session end
        if raised then Step(State(db', st.cache), Crash())
        else
          Step(State(TokenDelete(db', user), st.cache[token := None]),
               Response(Redirect(RootUrl), KeepCookies))
    case OtherAction =>
      Step(st, ShowProfile(profile))
  }

  /** One request against the whole system. */
  function Serve(st: State, h: Hasher, req: Request, ch: Choices): Step
    requires Consistent(st.db) && ChoicesFor(st, ch)
  {
    match req
    case HomeRequest(cookie) => Step(st, Home(st, cookie))
    case LoginRequest(verb, mode, username, password) => Login(st, h, verb, mode, username, password, ch)
    case LogoutRequest(cookie) => Logout(st, cookie)
    case ProfileRequest(user, cookie, verb, action) => UserProfile(st, h, user, cookie, verb, action)
  }

}

=== FILE: db_manager.dfy ===
/** The storage layer (db_manager/__init__.py) with its three stores as finite maps:
    the `accounts` table keyed by user name, the `profiles` table keyed by the
    account's row id, and the token store mapping a user name to its session token. */
module DbManager {
  import opened Wrappers
  import opened Models

  // Character codes bounding the salt alphabet, and the salt length.
  const AsciiNumStart: int := 48
  const AsciiNumEnd: int := 57
  const AsciiAlphaStart: int := 97
  const AsciiAlphaEnd: int := 122
  const SaltLength: nat := 10

  /** Length of `uuid4().hex`. */
  const TokenLength: nat := 32

  /** Row id of an `accounts` row, which is also the key of its `profiles` row. */
  type RowId = int

  /** The hex-digest function applied to salt and password; left uninterpreted. */
  type Hasher = string -> string

  datatype AccountRow = AccountRow(hash: string, salt: string, rowid: RowId)

  /** A `profiles` row; a column that was never written is `None` (SQL NULL). */
  datatype ProfileRow = ProfileRow(
    fname: Option<string>,
    lname: Option<string>,
    avatar: Option<string>,
    files: string)

  datatype Db = Db(
    accounts: map<string, AccountRow>,
    profiles: map<RowId, ProfileRow>,
    tokens: map<string, string>)

  const EmptyDb: Db := Db(map[], map[], map[])

  ghost predicate Injective(h: Hasher)
  {
    forall a, b :: h(a) == h(b) ==> a == b
  }

  // ---------------------------------------------------------------------------
  // Password encoding and salts

  /** The stored form of a password: the digest of salt followed by password. */
  function PasswordEncode(h: Hasher, salt: string, password: string): string
  {
    h(salt + password)
  }

  /** With an injective digest, one salt never encodes two passwords alike. */
  lemma EncodeSeparatesPasswords(h: Hasher, salt: string, p: string, q: string)
    requires Injective(h)
    ensures PasswordEncode(h, salt, p) == PasswordEncode(h, salt, q) <==> p == q
  {
    if PasswordEncode(h, salt, p) == PasswordEncode(h, salt, q) {
      assert salt + p == salt + q;
      assert p == (salt + p)[|salt|..];
      assert q == (salt + q)[|salt|..];
    }
  }

  predicate IsSaltChar(c: char)
  {
    '0' <= c <= '9' || 'a' <= c <= 'z'
  }

  predicate ValidSalt(s: string)
  {
    |s| == SaltLength && forall i :: 0 <= i < |s| ==> IsSaltChar(s[i])
  }

  /** The characters with codes `lo` through `hi`, in order. */
  function CharRange(lo: int, hi: int): (r: seq<char>)
    requires 0 <= lo && hi < 0xD800
    ensures |r| == if lo <= hi then hi - lo + 1 else 0
    ensures forall i :: 0 <= i < |r| ==> r[i] == (lo + i) as char
    decreases hi - lo
  {
    if lo > hi then [] else [lo as char] + CharRange(lo + 1, hi)
  }

  /** The salt alphabet: the ten digits followed by the 26 lower-case letters. */
  function Alphanum(): (a: seq<char>)
    ensures |a| == 36
    ensures forall i :: 0 <= i < |a| ==> IsSaltChar(a[i])
  {
    CharRange(AsciiNumStart, AsciiNumEnd) + CharRange(AsciiAlphaStart, AsciiAlphaEnd)
  }

  /** The position of a salt character in the alphabet. */
  function SaltCharIndex(c: char): (k: nat)
    requires IsSaltChar(c)
    ensures k < |Alphanum()| && Alphanum()[k] == c
  {
    if c <= '9' then c as int - AsciiNumStart else 10 + c as int - AsciiAlphaStart
  }

  /** The outcomes of the ten `random.choice` draws: positions in the alphabet. */
  predicate ValidPicks(picks: seq<nat>)
  {
    |picks| == SaltLength && forall i :: 0 <= i < |picks| ==> picks[i] < |Alphanum()|
  }

  /** The salt made from the given draws. */
  function GenerateSalt(picks: seq<nat>): (salt: string)
    requires ValidPicks(picks)
    ensures ValidSalt(salt)
    ensures forall i :: 0 <= i < |salt| ==> salt[i] == Alphanum()[picks[i]]
  {
    var a := Alphanum();
    seq(|picks|, i requires 0 <= i < |picks| => a[picks[i]])
  }

  /** Every valid salt can be generated: the draws reach the whole salt space. */
  lemma SaltCoverage(salt: string)
    requires ValidSalt(salt)
    ensures exists picks :: ValidPicks(picks) && GenerateSalt(picks) == salt
  {
    var picks := seq(|salt|, i requires 0 <= i < |salt| => SaltCharIndex(salt[i]));
    assert ValidPicks(picks);
    assert GenerateSalt(picks) == salt;
  }

  predicate IsHexDigit(c: char)
  {
    '0' <= c <= '9' || 'a' <= c <= 'f'
  }

  /** The shape of `uuid4().hex`: 32 lower-case hexadecimal digits. */
  predicate UuidHex(t: string)
  {
    |t| == TokenLength && forall i :: 0 <= i < |t| ==> IsHexDigit(t[i])
  }

  // ---------------------------------------------------------------------------
  // Row ids and the consistency of the two tables

  function RowIds(accounts: map<string, AccountRow>): set<RowId>
  {
    set u | u in accounts :: accounts[u].rowid
  }

  /** The tables agree: row ids are unique, every account has its profile row,
      and every profile row belongs to an account. */
  ghost predicate Consistent(db: Db)
  {
    && (forall u, v :: u in db.accounts && v in db.accounts && u != v ==>
          db.accounts[u].rowid != db.accounts[v].rowid)
    && (forall u :: u in db.accounts ==> db.accounts[u].rowid in db.profiles)
    && (forall r :: r in db.profiles ==> r in RowIds(db.accounts))
  }

  lemma EmptyDbConsistent()
    ensures Consistent(EmptyDb)
  {
  }

  // ---------------------------------------------------------------------------
  // Accounts

  /** The files directory a new account is given. */
  function FilesDir(username: string): string
  {
    "static/files/" + username + "/"
  }

  /** A new account: a fresh salt from the draws, the salted hash, a fresh row id,
      and a profile row with only the files directory set. Returns the new store
      and the default profile handed to the caller. */
  function AccountCreate(db: Db, h: Hasher, username: string, password: string,
                         saltPicks: seq<nat>, rowid: RowId): (r: (Db, Profile))
    requires username !in db.accounts
    requires ValidPicks(saltPicks)
    requires rowid !in RowIds(db.accounts) && rowid !in db.profiles
    ensures username in r.0.accounts && r.0.accounts - {username} == db.accounts
    ensures ValidSalt(r.0.accounts[username].salt)
    ensures r.0.accounts[username].hash == PasswordEncode(h, r.0.accounts[username].salt, password)
    ensures r.0.accounts[username].rowid == rowid
    ensures rowid in r.0.profiles && r.0.profiles - {rowid} == db.profiles
    ensures r.0.profiles[rowid] == ProfileRow(None, None, None, FilesDir(username))
    ensures r.0.tokens == db.tokens
    ensures r.1 == NewProfile().(username := username, files := FilesDir(username))
  {
    var salt := GenerateSalt(saltPicks);
    var row := AccountRow(PasswordEncode(h, salt, password), salt, rowid);
    var db' := db.(accounts := db.accounts[username := row],
                   profiles := db.profiles[rowid := ProfileRow(None, None, None, FilesDir(username))]);
    (db', NewProfile().(username := username, files := FilesDir(username)))
  }

  /** True iff an account row exists and its hash matches the password under its salt. */
  function AccountAuth(db: Db, h: Hasher, username: string, password: string): (ok: bool)
    ensures username !in db.accounts ==> !ok
    ensures ok ==> db.accounts[username].hash == PasswordEncode(h, db.accounts[username].salt, password)
  {
    username in db.accounts
    && db.accounts[username].hash == PasswordEncode(h, db.accounts[username].salt, password)
  }

  /** Re-hashes the account's password under its existing salt. The account must
      exist: the salt lookup raises an `IndexError` otherwise. */
  function AccountUpdatePassword(db: Db, h: Hasher, username: string, password: string): (db': Db)
    requires username in db.accounts
    ensures db'.accounts.Keys == db.accounts.Keys
    ensures db'.accounts[username].salt == db.accounts[username].salt
    ensures db'.accounts[username].rowid == db.accounts[username].rowid
    ensures db'.accounts[username].hash == PasswordEncode(h, db.accounts[username].salt, password)
    ensures forall v :: v in db.accounts && v != username ==> db'.accounts[v] == db.accounts[v]
    ensures db'.profiles == db.profiles && db'.tokens == db.tokens
  {
    var row := db.accounts[username];
    db.(accounts := db.accounts[username := row.(hash := PasswordEncode(h, row.salt, password))])
  }

  /** Right after creating an account, exactly its password authenticates
      (exactly: given an injective digest). */
  lemma AuthAfterCreate(db: Db, h: Hasher, username: string, password: string, other: string,
                        saltPicks: seq<nat>, rowid: RowId)
    requires username !in db.accounts
    requires ValidPicks(saltPicks)
    requires rowid !in RowIds(db.accounts) && rowid !in db.profiles
    ensures AccountAuth(AccountCreate(db, h, username, password, saltPicks, rowid).0, h, username, password)
    ensures Injective(h) ==>
      (AccountAuth(AccountCreate(db, h, username, password, saltPicks, rowid).0, h, username, other)
       <==> other == password)
  {
    var db' := AccountCreate(db, h, username, password, saltPicks, rowid).0;
    if Injective(h) {
      EncodeSeparatesPasswords(h, db'.accounts[username].salt, password, other);
    }
  }

  /** After a password change the new password authenticates, and (given an
      injective digest) no other password does, the old one included. */
  lemma AuthAfterUpdate(db: Db, h: Hasher, username: string, password: string, other: string)
    requires username in db.accounts
    ensures AccountAuth(AccountUpdatePassword(db, h, username, password), h, username, password)
    ensures Injective(h) ==>
      (AccountAuth(AccountUpdatePassword(db, h, username, password), h, username, other)
       <==> other == password)
  {
    if Injective(h) {
      EncodeSeparatesPasswords(h, db.accounts[username].salt, password, other);
    }
  }

  // ---------------------------------------------------------------------------
  // Profiles

  /** The profile of `username`, joined through the account's row id; `None` when
      either row is missing. */
  function ProfileGet(db: Db, username: string): (p: Option<Profile>)
    ensures p.Some? <==> username in db.accounts && db.accounts[username].rowid in db.profiles
    ensures p.Some? ==> p.value.username == username
    ensures p.Some? ==>
      var row := db.profiles[db.accounts[username].rowid];
      p.value == Profile(username, row.fname, row.lname, row.avatar, row.files)
  {
    if username in db.accounts && db.accounts[username].rowid in db.profiles then
      var row := db.profiles[db.accounts[username].rowid];
      Some(Profile(username, row.fname, row.lname, row.avatar, row.files))
    else
      None
  }

  /** In a consistent store a profile exists exactly for the existing accounts. */
  lemma ProfileExistsIffAccount(db: Db, username: string)
    requires Consistent(db)
    ensures ProfileGet(db, username).Some? <==> username in db.accounts
  {
  }

  /** The field value after a partial update: written when given, kept otherwise. */
  function Patch(given: Option<string>, current: Option<string>): Option<string>
  {
    if given.Some? then given else current
  }

  /** Writes each of `fname`, `lname`, `avatar` that is given and leaves the
      others alone. The account must exist: the row-id lookup raises an
      `IndexError` otherwise; a missing profile row is updated nowhere. */
  function ProfileUpdate(db: Db, username: string, fname: Option<string>, lname: Option<string>,
                         avatar: Option<string>): (db': Db)
    requires username in db.accounts
    ensures db'.accounts == db.accounts && db'.tokens == db.tokens
    ensures db'.profiles.Keys == db.profiles.Keys
    ensures forall r :: r in db.profiles && r != db.accounts[username].rowid ==>
      db'.profiles[r] == db.profiles[r]
    ensures var rid := db.accounts[username].rowid;
      rid in db.profiles ==>
        && (fname.Some? ==> db'.profiles[rid].fname == fname)
        && (fname.None? ==> db'.profiles[rid].fname == db.profiles[rid].fname)
        && (lname.Some? ==> db'.profiles[rid].lname == lname)
        && (lname.None? ==> db'.profiles[rid].lname == db.profiles[rid].lname)
        && (avatar.Some? ==> db'.profiles[rid].avatar == avatar)
        && (avatar.None? ==> db'.profiles[rid].avatar == db.profiles[rid].avatar)
        && db'.profiles[rid].files == db.profiles[rid].files
  {
    var rid := db.accounts[username].rowid;
    if rid in db.profiles then
      var row := db.profiles[rid];
      var row' := row.(fname := Patch(fname, row.fname), lname := Patch(lname, row.lname),
                       avatar := Patch(avatar, row.avatar));
      db.(profiles := db.profiles[rid := row'])
    else
      db
  }

  /** Seen through `ProfileGet`: the updated user's profile shows the given fields
      and keeps the rest; every other user's profile is unchanged. */
  lemma ProfileGetAfterUpdate(db: Db, username: string, fname: Option<string>, lname: Option<string>,
                              avatar: Option<string>, other: string)
    requires Consistent(db) && username in db.accounts
    ensures var db' := ProfileUpdate(db, username, fname, lname, avatar);
      var p := ProfileGet(db, username).value;
      ProfileGet(db', username)
        == Some(p.(fname := Patch(fname, p.fname), lname := Patch(lname, p.lname),
                   avatar := Patch(avatar, p.avatar)))
    ensures other != username ==>
      ProfileGet(ProfileUpdate(db, username, fname, lname, avatar), other) == ProfileGet(db, other)
  {
  }

  /** Deletes the account row and its profile row, then removes the avatar file
      and the files directory. Both rows must exist: the row-id lookup and the
      profile fetch raise an `IndexError` otherwise. The second component tells
      whether the cleanup raised: with a NULL avatar column the existence test
      on the avatar path raises a `TypeError`, after both deletions were
      committed. */
  function ProfileDelete(db: Db, username: string): (r: (Db, bool))
    requires username in db.accounts && db.accounts[username].rowid in db.profiles
    ensures username !in r.0.accounts && r.0.accounts == db.accounts - {username}
    ensures db.accounts[username].rowid !in r.0.profiles
    ensures r.0.profiles == db.profiles - {db.accounts[username].rowid}
    ensures r.0.tokens == db.tokens
    ensures r.1 <==> db.profiles[db.accounts[username].rowid].avatar.None?
  {
    var rid := db.accounts[username].rowid;
    var raised := db.profiles[rid].avatar.None?;
    (db.(accounts := db.accounts - {username}, profiles := db.profiles - {rid}), raised)
  }

  /** After deletion, raised or not, the user has no profile and cannot
      authenticate; in a consistent store every other user's profile is
      unchanged. */
  lemma ProfileGetAfterDelete(db: Db, h: Hasher, username: string, password: string, other: string)
    requires Consistent(db) && username in db.accounts
    ensures ProfileGet(ProfileDelete(db, username).0, username).None?
    ensures !AccountAuth(ProfileDelete(db, username).0, h, username, password)
    ensures other != username ==> ProfileGet(ProfileDelete(db, username).0, other) == ProfileGet(db, other)
  {
  }

  /** The cleanup raises exactly for a user whose profile has no stored avatar,
      which is every user who never uploaded a picture. */
  lemma DeleteRaisesWithoutAvatar(db: Db, username: string)
    requires Consistent(db) && username in db.accounts
    ensures ProfileDelete(db, username).1 <==> ProfileGet(db, username).value.avatar.None?
  {
  }

  // ---------------------------------------------------------------------------
  // Session tokens

  function TokenGet(db: Db, username: string): (t: Option<string>)
    ensures t.Some? <==> username in db.tokens
    ensures t.Some? ==> t.value == db.tokens[username]
  {
    if username in db.tokens then Some(db.tokens[username]) else None
  }

  /** Stores `token` (the `uuid4().hex` drawn) as the user's token, replacing any
      earlier one, and returns it. */
  function TokenCreate(db: Db, username: string, token: string): (r: (Db, string))
    requires UuidHex(token)
    ensures r.1 == token
    ensures TokenGet(r.0, username) == Some(token)
    ensures forall v :: v != username ==> TokenGet(r.0, v) == TokenGet(db, v)
    ensures r.0.accounts == db.accounts && r.0.profiles == db.profiles
  {
    (db.(tokens := db.tokens[username := token]), token)
  }

  /** Drops the user's token; a user without one is left as is. */
  function TokenDelete(db: Db, username: string): (db': Db)
    ensures TokenGet(db', username) == None
    ensures forall v :: v != username ==> TokenGet(db', v) == TokenGet(db, v)
    ensures db'.accounts == db.accounts && db'.profiles == db.profiles
  {
    db.(tokens := db.tokens - {username})
  }

  // ---------------------------------------------------------------------------
  // Each store operation keeps the tables consistent

  lemma CreatePreservesConsistent(db: Db, h: Hasher, username: string, password: string,
                                  saltPicks: seq<nat>, rowid: RowId)
    requires Consistent(db)
    requires username !in db.accounts
    requires ValidPicks(saltPicks)
    requires rowid !in RowIds(db.accounts)
    ensures rowid !in db.profiles
    ensures Consistent(AccountCreate(db, h, username, password, saltPicks, rowid).0)
  {
    var db' := AccountCreate(db, h, username, password, saltPicks, rowid).0;
    forall u | u in db.accounts
      ensures db.accounts[u].rowid in RowIds(db.accounts)
    {
    }
    forall r | r in db'.profiles
      ensures r in RowIds(db'.accounts)
    {
      if r == rowid {
        assert db'.accounts[username].rowid == r;
      } else {
        var u :| u in db.accounts && db.accounts[u].rowid == r;
        assert db'.accounts[u] == db.accounts[u];
      }
    }
  }

  lemma UpdatePasswordPreservesConsistent(db: Db, h: Hasher, username: string, password: string)
    requires Consistent(db) && username in db.accounts
    ensures Consistent(AccountUpdatePassword(db, h, username, password))
  {
    var db' := AccountUpdatePassword(db, h, username, password);
    assert forall u :: u in db'.accounts ==> db'.accounts[u].rowid == db.accounts[u].rowid;
    forall r | r in db'.profiles
      ensures r in RowIds(db'.accounts)
    {
      var u :| u in db.accounts && db.accounts[u].rowid == r;
      assert u in db'.accounts && db'.accounts[u].rowid == r;
    }
  }

  lemma ProfileUpdatePreservesConsistent(db: Db, username: string, fname: Option<string>,
                                         lname: Option<string>, avatar: Option<string>)
    requires Consistent(db) && username in db.accounts
    ensures Consistent(ProfileUpdate(db, username, fname, lname, avatar))
  {
  }

  lemma DeletePreservesConsistent(db: Db, username: string)
    requires Consistent(db) && username in db.accounts
    ensures Consistent(ProfileDelete(db, username).0)
  {
    var db' := ProfileDelete(db, username).0;
    var rid := db.accounts[username].rowid;
    forall r | r in db'.profiles
      ensures r in RowIds(db'.accounts)
    {
      var u :| u in db.accounts && db.accounts[u].rowid == r;
      assert u != username;
      assert u in db'.accounts && db'.accounts[u].rowid == r;
    }
  }

}

=== FILE: models.dfy ===
/** The record types of the account layer (db_manager/models.py) and their defaults. */
module Models {
  import opened Wrappers

  /** Avatar path a profile starts with before any picture is uploaded. */
  const DefaultAvatar: string := "static/default.jpg"

  /** Login credentials: `password` is the salted hash, `salt` the 10-character salt. */
  datatype Account = Account(username: string, password: string, salt: string)

  /** Profile details. The name and avatar fields may be `None`: a profile read back
      from the store carries `None` for every column that was never written. */
  datatype Profile = Profile(
    username: string,
    fname: Option<string>,
    lname: Option<string>,
    avatar: Option<string>,
    files: string)

  /** The part of `jsonify`'s result that does not depend on the filesystem
      (the directory listing under "files" is not modelled). */
  datatype ProfileJson = ProfileJson(
    username: string,
    fname: Option<string>,
    lname: Option<string>,
    avatar: Option<string>)

  /** A freshly constructed `Account`. */
  function NewAccount(): (a: Account)
    ensures a.username == "" && a.password == "" && a.salt == ""
  {
    Account("", "", "")
  }

  /** A freshly constructed `Profile`: empty names and files, the default avatar. */
  function NewProfile(): (p: Profile)
    ensures p.username == "" && p.files == ""
    ensures p.fname == Some("") && p.lname == Some("")
    ensures p.avatar == Some(DefaultAvatar)
  {
    Profile("", Some(""), Some(""), Some(DefaultAvatar), "")
  }

  function Jsonify(p: Profile): (j: ProfileJson)
    ensures j.username == p.username
    ensures j.fname == p.fname && j.lname == p.lname
    ensures j.avatar == p.avatar
  {
    ProfileJson(p.username, p.fname, p.lname, p.avatar)
  }

  /** The export forgets exactly the files directory: two profiles export alike
      if and only if they agree on every other field. */
  lemma JsonifyForgetsOnlyFiles(p: Profile, q: Profile)
    ensures Jsonify(p) == Jsonify(q) <==> p.(files := q.files) == q
  {
  }

}

=== FILE: path_text.dfy ===
/** Python's `str.split(sep)` with an explicit separator, its inverse `sep.join`,
    and the avatar path built from an uploaded file's name. */
module PathText {
  import opened Wrappers

  /** Directory that uploaded avatars are written to. */
  const AvatarDir: string := "static/avatars"

  /** `s.split(sep)`: the maximal separator-free pieces of `s`, in order. */
  function Split(s: string, sep: char): (pieces: seq<string>)
    ensures |pieces| >= 1
    decreases |s|
  {
    if |s| == 0 then [""]
    else if s[0] == sep then [""] + Split(s[1..], sep)
    else
      var rest := Split(s[1..], sep);
      [[s[0]] + rest[0]] + rest[1..]
  }

  /** `sep.join(pieces)`. */
  function Join(pieces: seq<string>, sep: char): string
    requires |pieces| >= 1
    decreases |pieces|
  {
    if |pieces| == 1 then pieces[0] else pieces[0] + [sep] + Join(pieces[1..], sep)
  }

  lemma JoinCons(pieces: seq<string>, sep: char)
    requires |pieces| >= 2
    ensures Join(pieces, sep) == pieces[0] + [sep] + Join(pieces[1..], sep)
  {
  }

  /** The pieces of a split hold no separator, and there is more than one piece
      exactly when the string holds a separator. */
  lemma {:induction false} SplitPieces(s: string, sep: char)
    ensures forall i :: 0 <= i < |Split(s, sep)| ==> sep !in Split(s, sep)[i]
    ensures |Split(s, sep)| == 1 <==> sep !in s
    decreases |s|
  {
    if |s| > 0 {
      var tail := s[1..];
      SplitPieces(tail, sep);
      assert s == [s[0]] + tail;
      var rest := Split(tail, sep);
      if s[0] != sep {
        var first := [s[0]] + rest[0];
        assert sep !in first;
        var pieces := Split(s, sep);
        assert pieces == [first] + rest[1..];
        forall i | 0 <= i < |pieces| ensures sep !in pieces[i] {
          if i > 0 {
            assert pieces[i] == rest[i];
          }
        }
      }
    }
  }

  /** Joining the pieces of a split gives back the original string. */
  lemma {:induction false} JoinSplit(s: string, sep: char)
    ensures Join(Split(s, sep), sep) == s
    decreases |s|
  {
    if |s| > 0 {
      var tail := s[1..];
      var rest := Split(tail, sep);
      JoinSplit(tail, sep);
      assert s == [s[0]] + tail;
      if s[0] == sep {
        var pieces := [""] + rest;
        assert Split(s, sep) == pieces;
        assert pieces[1..] == rest;
        JoinCons(pieces, sep);
      } else {
        var first := [s[0]] + rest[0];
        var pieces := [first] + rest[1..];
        assert Split(s, sep) == pieces;
        if |rest| > 1 {
          assert pieces[1..] == rest[1..];
          JoinCons(pieces, sep);
          JoinCons(rest, sep);
        }
      }
    }
  }

  /** Splitting a join of separator-free pieces gives back the pieces. */
  lemma {:induction false} SplitJoin(pieces: seq<string>, sep: char)
    requires |pieces| >= 1
    requires forall i :: 0 <= i < |pieces| ==> sep !in pieces[i]
    ensures Split(Join(pieces, sep), sep) == pieces
    decreases |pieces|, |pieces[0]|
  {
    var head := pieces[0];
    if |head| == 0 {
      if |pieces| > 1 {
        SplitJoin(pieces[1..], sep);
        JoinCons(pieces, sep);
        assert Join(pieces, sep) == [sep] + Join(pieces[1..], sep);
        assert [""] + pieces[1..] == pieces;
      }
    } else {
      var shorter := pieces[0 := head[1..]];
      assert sep !in head[1..] by {
        forall i | 0 <= i < |head[1..]| ensures head[1..][i] != sep {
          assert head[1..][i] == head[i + 1];
        }
      }
      SplitJoin(shorter, sep);
      var s := Join(pieces, sep);
      assert head == [head[0]] + head[1..];
      assert s == [head[0]] + Join(shorter, sep) by {
        if |pieces| > 1 {
          assert shorter[1..] == pieces[1..];
          JoinCons(pieces, sep);
          JoinCons(shorter, sep);
        }
      }
      assert s[0] == head[0] && s[1..] == Join(shorter, sep);
      var rest := Split(s[1..], sep);
      assert rest == shorter;
      assert [[head[0]] + rest[0]] + rest[1..] == pieces;
    }
  }

  /** The extension taken from an upload's file name: the second `.`-separated
      piece, or `None` where indexing that piece raises an `IndexError`. */
  function Extension(filename: string): (ext: Option<string>)
    ensures ext.Some? <==> '.' in filename
    ensures ext.Some? ==> '.' !in ext.value
  {
    SplitPieces(filename, '.');
    var pieces := Split(filename, '.');
    if |pieces| >= 2 then Some(pieces[1]) else None
  }

  /** The extension sits between the first and the second dot of the file name. */
  lemma ExtensionIsSecondPiece(filename: string)
    requires '.' in filename
    ensures exists stem, rest ::
      && filename == stem + "." + Extension(filename).value + rest
      && '.' !in stem
      && (rest == "" || rest[0] == '.')
  {
    var pieces := Split(filename, '.');
    SplitPieces(filename, '.');
    var ext := pieces[1];
    assert Extension(filename).value == ext;
    JoinSplit(filename, '.');
    var tail := pieces[1..];
    JoinCons(pieces, '.');
    var rest := if |pieces| == 2 then "" else "." + Join(pieces[2..], '.');
    assert Join(tail, '.') == ext + rest by {
      if |pieces| > 2 {
        assert tail[1..] == pieces[2..];
        JoinCons(tail, '.');
      }
    }
    var stem := pieces[0];
    assert filename == stem + "." + ext + rest;
    assert '.' !in stem;
    assert rest == "" || rest[0] == '.';
    assert filename == stem + "." + Extension(filename).value + rest;
  }

  /** The name an avatar for `user` with extension `ext` is saved under. */
  function AvatarFileName(user: string, ext: string): string
  {
    user + "." + ext
  }

  /** Where an avatar for `user` with extension `ext` is saved. */
  function AvatarPath(user: string, ext: string): string
  {
    AvatarDir + "/" + AvatarFileName(user, ext)
  }

  /** For a user name without dots, the saved avatar keeps the extension of
      the uploaded file: reading the extension back off the saved name gives
      the one taken from the upload. */
  lemma AvatarNameKeepsExtension(user: string, filename: string)
    requires '.' !in user && '.' in filename
    ensures Extension(AvatarFileName(user, Extension(filename).value)) == Extension(filename)
  {
    var ext := Extension(filename).value;
    SplitJoin([user, ext], '.');
    JoinCons([user, ext], '.');
    assert Join([user, ext], '.') == AvatarFileName(user, ext);
  }

}

=== FILE: sessions.dfy ===
/** Properties of the request handlers: the authentication round trip, token
    supersession, logout, the profile actions, and the consistency of the
    stores across every request. */
module Sessions {
  import opened Wrappers
  import opened Models
  import opened PathText
  import opened DbManager
  import opened App

  // ---------------------------------------------------------------------------
  // Store consistency

  lemma InitConsistent()
    ensures Consistent(Init.db)
  {
    EmptyDbConsistent();
  }

  lemma LoginPreservesConsistent(st: State, h: Hasher, verb: Method, mode: Option<string>,
                                 username: string, password: string, ch: Choices)
    requires Consistent(st.db) && ChoicesFor(st, ch)
    ensures Consistent(Login(st, h, verb, mode, username, password, ch).st.db)
  {
    if verb == Post && mode == Some("register") && ProfileGet(st.db, username).None? {
      ProfileExistsIffAccount(st.db, username);
      CreatePreservesConsistent(st.db, h, username, password, ch.saltPicks, ch.rowid);
    }
  }

  lemma LogoutPreservesConsistent(st: State, cookie: Option<string>)
    requires Consistent(st.db)
    ensures Consistent(Logout(st, cookie).st.db)
  {
  }

  lemma ProfileActionPreservesConsistent(st: State, h: Hasher, user: string, token: string,
                                         profile: Profile, action: Action)
    requires Consistent(st.db) && CachedProfile(st.cache, token) == Some(profile)
    ensures Consistent(ProfileAction(st, h, user, token, profile, action).st.db)
  {
    match action
    case ChangePassword(password) =>
      if user in st.db.accounts {
        UpdatePasswordPreservesConsistent(st.db, h, user, password);
      }
    case ChangePicture(filename) =>
      if user in st.db.accounts && Extension(filename).Some? {
        ProfileUpdatePreservesConsistent(st.db, user, None, None,
                                         Some(AvatarPath(user, Extension(filename).value)));
      }
    case ChangeName(fname, lname) =>
      if user in st.db.accounts {
        ProfileUpdatePreservesConsistent(st.db, user, fname, lname, None);
      }
    case DeleteAccount(confirmation) =>
      if confirmation == Some(user) && user in st.db.accounts {
        DeletePreservesConsistent(st.db, user);
      }
    case OtherAction =>
  }

  lemma UserProfilePreservesConsistent(st: State, h: Hasher, user: string, cookie: Option<string>,
                                       verb: Method, action: Action)
    requires Consistent(st.db)
    ensures Consistent(UserProfile(st, h, user, cookie, verb, action).st.db)
  {
    if cookie.Some? && CachedProfile(st.cache, cookie.value).Some? && verb == Post {
      var profile := CachedProfile(st.cache, cookie.value).value;
      assert UserProfile(st, h, user, cookie, verb, action)
        == ProfileAction(st, h, user, cookie.value, profile, action);
      ProfileActionPreservesConsistent(st, h, user, cookie.value, profile, action);
    } else {
      assert UserProfile(st, h, user, cookie, verb, action).st == st;
    }
  }

  /** Every request keeps the accounts and profiles tables consistent. */
  lemma ServePreservesConsistent(st: State, h: Hasher, req: Request, ch: Choices)
    requires Consistent(st.db) && ChoicesFor(st, ch)
    ensures Consistent(Serve(st, h, req, ch).st.db)
  {
    match req
    case HomeRequest(_) =>
    case LoginRequest(verb, mode, username, password) =>
      LoginPreservesConsistent(st, h, verb, mode, username, password, ch);
    case LogoutRequest(cookie) =>
      LogoutPreservesConsistent(st, cookie);
    case ProfileRequest(user, cookie, verb, action) =>
      UserProfilePreservesConsistent(st, h, user, cookie, verb, action);
  }

  // ---------------------------------------------------------------------------
  // Login and registration

  /** Registering a name that already has a profile fails with error 2 and
      changes nothing. */
  lemma RegisterExistingRejected(st: State, h: Hasher, username: string, password: string, ch: Choices)
    requires Consistent(st.db) && ChoicesFor(st, ch)
    requires ProfileGet(st.db, username).Some?
    ensures Login(st, h, Post, Some("register"), username, password, ch)
      == Step(st, Response(LoginPage(Some("username already exists")), KeepCookies))
  {
  }

  /** Registering a new name creates the account with the password, issues the
      drawn token, caches the default profile under it and sets the cookie;
      no other account, profile, token or cache entry changes. */
  lemma RegisterCreatesSession(st: State, h: Hasher, username: string, password: string, ch: Choices,
                               other: string)
    requires Consistent(st.db) && ChoicesFor(st, ch)
    requires ProfileGet(st.db, username).None?
    ensures var r := Login(st, h, Post, Some("register"), username, password, ch);
      && AccountAuth(r.st.db, h, username, password)
      && r.st.db.accounts - {username} == st.db.accounts
      && ProfileGet(r.st.db, username) == Some(Profile(username, None, None, None, FilesDir(username)))
      && TokenGet(r.st.db, username) == Some(ch.token)
      && (forall v :: v != username ==> TokenGet(r.st.db, v) == TokenGet(st.db, v))
      && (other != username ==> ProfileGet(r.st.db, other) == ProfileGet(st.db, other))
      && r.st.cache == st.cache[ch.token := Some(NewProfile().(username := username, files := FilesDir(username)))]
      && ch.token !in st.cache
      && r.resp == Response(Redirect(ProfileUrl(username)), SetCookie(TokenCookie, ch.token))
  {
    ProfileExistsIffAccount(st.db, username);
    AuthAfterCreate(st.db, h, username, password, password, ch.saltPicks, ch.rowid);
    CreatePreservesConsistent(st.db, h, username, password, ch.saltPicks, ch.rowid);
  }

  /** The profile cached at registration holds the class defaults, while the
      store holds `None` in the never-written name and avatar columns. */
  lemma RegisteredCacheDiffersFromStore(st: State, h: Hasher, username: string, password: string, ch: Choices)
    requires Consistent(st.db) && ChoicesFor(st, ch)
    requires ProfileGet(st.db, username).None?
    ensures var r := Login(st, h, Post, Some("register"), username, password, ch);
      && r.st.cache[ch.token].value.avatar == Some(DefaultAvatar)
      && ProfileGet(r.st.db, username).value.avatar == None
      && r.st.cache[ch.token] != ProfileGet(r.st.db, username)
  {
    ProfileExistsIffAccount(st.db, username);
  }

  /** A successful login maps the drawn token to the user's stored profile,
      makes it the user's token and sets the cookie; the tables, other users'
      tokens and every earlier cache entry are unchanged. */
  lemma LoginSucceeds(st: State, h: Hasher, username: string, password: string, ch: Choices)
    requires Consistent(st.db) && ChoicesFor(st, ch)
    requires AccountAuth(st.db, h, username, password)
    ensures var r := Login(st, h, Post, Some("login"), username, password, ch);
      && ProfileGet(st.db, username).Some?
      && r.st.cache == st.cache[ch.token := ProfileGet(st.db, username)]
      && Resolve(r.st.cache, Some(ch.token)).value.username == username
      && (forall t :: t in st.cache ==> t in r.st.cache && r.st.cache[t] == st.cache[t])
      && IsOwner(r.st.db, Some(ch.token), username)
      && (forall v :: v != username ==> TokenGet(r.st.db, v) == TokenGet(st.db, v))
      && r.st.db.accounts == st.db.accounts && r.st.db.profiles == st.db.profiles
      && r.resp == Response(Redirect(ProfileUrl(username)), SetCookie(TokenCookie, ch.token))
  {
    ProfileExistsIffAccount(st.db, username);
  }

  /** A failed login shows error 1 and changes none of the stores. */
  lemma LoginFails(st: State, h: Hasher, username: string, password: string, ch: Choices)
    requires Consistent(st.db) && ChoicesFor(st, ch)
    requires !AccountAuth(st.db, h, username, password)
    ensures Login(st, h, Post, Some("login"), username, password, ch)
      == Step(st, Response(LoginPage(Some("incorrect username or password")), KeepCookies))
  {
  }

  /** A GET shows the bare form and a POST with an unknown mode answers
      "FAILURE"; neither changes anything. */
  lemma LoginOtherRequestsInert(st: State, h: Hasher, verb: Method, mode: Option<string>,
                                username: string, password: string, ch: Choices)
    requires Consistent(st.db) && ChoicesFor(st, ch)
    ensures var r := Login(st, h, verb, mode, username, password, ch);
      && (verb == Get ==> r == Step(st, Response(LoginPage(None), KeepCookies)))
      && (verb == Post && mode != Some("login") && mode != Some("register") ==>
            r == Step(st, Response(Text("FAILURE"), KeepCookies)))
  {
  }

  /** Registration followed by a login with the same credentials succeeds, and
      the new session resolves to a profile of that user. */
  lemma RegisterThenLogin(st: State, h: Hasher, username: string, password: string,
                          ch1: Choices, ch2: Choices)
    requires Consistent(st.db) && ChoicesFor(st, ch1)
    requires ProfileGet(st.db, username).None?
    requires ChoicesFor(Login(st, h, Post, Some("register"), username, password, ch1).st, ch2)
    ensures var st1 := Login(st, h, Post, Some("register"), username, password, ch1).st;
      Consistent(st1.db)
    ensures var st1 := Login(st, h, Post, Some("register"), username, password, ch1).st;
      var r := Login(st1, h, Post, Some("login"), username, password, ch2);
      && r.resp == Response(Redirect(ProfileUrl(username)), SetCookie(TokenCookie, ch2.token))
      && Resolve(r.st.cache, Some(ch2.token)).Some?
      && Resolve(r.st.cache, Some(ch2.token)).value.username == username
  {
    LoginPreservesConsistent(st, h, Post, Some("register"), username, password, ch1);
    RegisterCreatesSession(st, h, username, password, ch1, username);
    var st1 := Login(st, h, Post, Some("register"), username, password, ch1).st;
    LoginSucceeds(st1, h, username, password, ch2);
  }

  /** A second login supersedes the first: only the new token passes the
      ownership test, yet the old token's cache entry stays and still resolves. */
  lemma TokenSupersession(st: State, h: Hasher, username: string, password: string,
                          ch1: Choices, ch2: Choices)
    requires Consistent(st.db) && ChoicesFor(st, ch1)
    requires AccountAuth(st.db, h, username, password)
    requires ChoicesFor(Login(st, h, Post, Some("login"), username, password, ch1).st, ch2)
    ensures var st1 := Login(st, h, Post, Some("login"), username, password, ch1).st;
      var st2 := Login(st1, h, Post, Some("login"), username, password, ch2).st;
      && IsOwner(st1.db, Some(ch1.token), username)
      && !IsOwner(st2.db, Some(ch1.token), username)
      && IsOwner(st2.db, Some(ch2.token), username)
      && ch1.token in st2.cache && st2.cache[ch1.token] == st1.cache[ch1.token]
      && Resolve(st2.cache, Some(ch1.token)).Some?
  {
    LoginSucceeds(st, h, username, password, ch1);
    var st1 := Login(st, h, Post, Some("login"), username, password, ch1).st;
    assert Consistent(st1.db);
    LoginSucceeds(st1, h, username, password, ch2);
    assert ch2.token != ch1.token;
  }

  // ---------------------------------------------------------------------------
  // Logout and the home page

  /** The home page sends a live session to its profile and everything else to
      the login page. */
  lemma HomeRoutes(st: State, cookie: Option<string>)
    ensures Resolve(st.cache, cookie).None? ==> Home(st, cookie).page == Redirect(LoginUrl)
    ensures Resolve(st.cache, cookie).Some? ==>
      Home(st, cookie) == Response(Redirect(ProfileUrl(Resolve(st.cache, cookie).value.username)), KeepCookies)
  {
  }

  /** Logging out a live session drops its owner's stored token, sets its cache
      entry to `None` (keeping the key) and expires the cookie; afterwards the
      home page redirects that token to the login page. */
  lemma LogoutEndsSession(st: State, token: string)
    requires CachedProfile(st.cache, token).Some?
    ensures var owner := CachedProfile(st.cache, token).value.username;
      var r := Logout(st, Some(token));
      && TokenGet(r.st.db, owner) == None
      && (forall v :: v != owner ==> TokenGet(r.st.db, v) == TokenGet(st.db, v))
      && r.st.db.accounts == st.db.accounts && r.st.db.profiles == st.db.profiles
      && r.st.cache == st.cache[token := None]
      && token in r.st.cache
      && r.resp == Response(Redirect(RootUrl), ExpireCookie(TokenCookie))
      && Home(r.st, Some(token)).page == Redirect(LoginUrl)
  {
  }

  /** Logging out without a live session raises, and changes nothing. */
  lemma LogoutWithoutSession(st: State, cookie: Option<string>)
    requires Resolve(st.cache, cookie).None?
    ensures Logout(st, cookie) == Step(st, Response(ServerError, KeepCookies))
  {
  }

  // ---------------------------------------------------------------------------
  // The profile page

  /** A GET never changes the state; with a live session it shows the caller's
      own cached profile, with edit options exactly when the caller owns `user`. */
  lemma ProfileViewIsReadOnly(st: State, h: Hasher, user: string, token: string, action: Action)
    requires CachedProfile(st.cache, token).Some?
    ensures UserProfile(st, h, user, Some(token), Get, action)
      == Step(st, Response(ProfilePage(Jsonify(CachedProfile(st.cache, token).value),
                                       IsOwner(st.db, Some(token), user)), KeepCookies))
  {
  }

  /** Without a cookie, a GET shows `user`'s stored profile (error 4 when there
      is none), without edit options, and a POST is refused with error 3. */
  lemma ProfileWithoutCookie(st: State, h: Hasher, user: string, verb: Method, action: Action)
    ensures var r := UserProfile(st, h, user, None, verb, action);
      && r.st == st
      && (ProfileGet(st.db, user).None? ==>
            r.resp == Response(LoginPage(Some("profile does not exist")), KeepCookies))
      && (ProfileGet(st.db, user).Some? && verb == Get ==>
            r.resp == Response(ProfilePage(Jsonify(ProfileGet(st.db, user).value), false), KeepCookies))
      && (ProfileGet(st.db, user).Some? && verb == Post ==>
            r.resp == Response(LoginPage(Some("invalid request")), KeepCookies))
  {
  }

  /** A cookie whose session has ended is sent back to the root, with no change. */
  lemma ProfileWithEndedSession(st: State, h: Hasher, user: string, token: string, verb: Method, action: Action)
    requires CachedProfile(st.cache, token).None?
    ensures UserProfile(st, h, user, Some(token), verb, action) == Step(st, Response(Redirect(RootUrl), KeepCookies))
  {
  }

  /** The password action re-hashes `user`'s password for ANY live session:
      the caller need not own `user`. Afterwards exactly the new password
      authenticates `user` (given an injective digest). */
  lemma PasswordActionIgnoresOwnership(st: State, h: Hasher, user: string, token: string,
                                       password: string, other: string)
    requires CachedProfile(st.cache, token).Some? && user in st.db.accounts
    ensures var r := UserProfile(st, h, user, Some(token), Post, ChangePassword(password));
      && r.st == st.(db := AccountUpdatePassword(st.db, h, user, password))
      && AccountAuth(r.st.db, h, user, password)
      && (Injective(h) ==> (AccountAuth(r.st.db, h, user, other) <==> other == password))
      && r.resp == Response(ProfilePage(Jsonify(CachedProfile(st.cache, token).value), true), KeepCookies)
  {
    AuthAfterUpdate(st.db, h, user, password, other);
  }

  /** A superseded token can still change the password: the stale session is
      not checked against the token store. */
  lemma StaleTokenStillActs(st: State, h: Hasher, username: string, password: string,
                            ch1: Choices, ch2: Choices, newPassword: string)
    requires Consistent(st.db) && ChoicesFor(st, ch1)
    requires AccountAuth(st.db, h, username, password)
    requires ChoicesFor(Login(st, h, Post, Some("login"), username, password, ch1).st, ch2)
    ensures var st1 := Login(st, h, Post, Some("login"), username, password, ch1).st;
      var st2 := Login(st1, h, Post, Some("login"), username, password, ch2).st;
      var r := UserProfile(st2, h, username, Some(ch1.token), Post, ChangePassword(newPassword));
      && !IsOwner(st2.db, Some(ch1.token), username)
      && AccountAuth(r.st.db, h, username, newPassword)
  {
    TokenSupersession(st, h, username, password, ch1, ch2);
    var st1 := Login(st, h, Post, Some("login"), username, password, ch1).st;
    var st2 := Login(st1, h, Post, Some("login"), username, password, ch2).st;
    PasswordActionIgnoresOwnership(st2, h, username, ch1.token, newPassword, newPassword);
  }

  /** The name action writes the names into the caller's cached profile and into
      `user`'s stored profile (a given `None` is cached but not stored), and
      shows the updated cached profile; every other user's profile is kept. */
  lemma NameActionWritesThrough(st: State, h: Hasher, user: string, token: string,
                                fname: Option<string>, lname: Option<string>, other: string)
    requires Consistent(st.db)
    requires CachedProfile(st.cache, token).Some? && user in st.db.accounts
    ensures var p := CachedProfile(st.cache, token).value;
      var q := ProfileGet(st.db, user).value;
      var r := UserProfile(st, h, user, Some(token), Post, ChangeName(fname, lname));
      && r.st.cache == st.cache[token := Some(p.(fname := fname, lname := lname))]
      && ProfileGet(r.st.db, user) == Some(q.(fname := Patch(fname, q.fname), lname := Patch(lname, q.lname)))
      && r.st.db.accounts == st.db.accounts && r.st.db.tokens == st.db.tokens
      && (other != user ==> ProfileGet(r.st.db, other) == ProfileGet(st.db, other))
      && r.resp == ShowProfile(p.(fname := fname, lname := lname))
  {
    ProfileGetAfterUpdate(st.db, user, fname, lname, None, user);
    ProfileGetAfterUpdate(st.db, user, fname, lname, None, other);
  }

  /** For a user without an account the name action raises, but only after
      the caller's cached profile was already rewritten. */
  lemma NameActionCrashKeepsCacheWrite(st: State, h: Hasher, user: string, token: string,
                                       fname: Option<string>, lname: Option<string>)
    requires CachedProfile(st.cache, token).Some? && user !in st.db.accounts
    ensures var p := CachedProfile(st.cache, token).value;
      UserProfile(st, h, user, Some(token), Post, ChangeName(fname, lname))
        == Step(State(st.db, st.cache[token := Some(p.(fname := fname, lname := lname))]),
                Response(ServerError, KeepCookies))
  {
  }

  /** The picture action stores `static/avatars/<user>.<ext>`, with `ext` the
      second dotted piece of the upload's name, in both the caller's cached
      profile and `user`'s stored one, and shows the updated cached profile.
      Nothing else changes: the other cache entries, the accounts, the tokens,
      `user`'s stored names and every other user's profile. A name without a
      dot, or a `user` without an account, raises and changes nothing. */
  lemma PictureActionSetsAvatar(st: State, h: Hasher, user: string, token: string, filename: string,
                                other: string)
    requires Consistent(st.db)
    requires CachedProfile(st.cache, token).Some?
    ensures var r := UserProfile(st, h, user, Some(token), Post, ChangePicture(filename));
      && ('.' !in filename || user !in st.db.accounts ==> r == Step(st, Response(ServerError, KeepCookies)))
      && ('.' in filename && user in st.db.accounts ==>
            var location := AvatarPath(user, Extension(filename).value);
            var p := CachedProfile(st.cache, token).value;
            var q := ProfileGet(st.db, user).value;
            && r.st.cache == st.cache[token := Some(p.(avatar := Some(location)))]
            && ProfileGet(r.st.db, user) == Some(q.(avatar := Some(location)))
            && r.st.db.accounts == st.db.accounts
            && r.st.db.tokens == st.db.tokens
            && (other != user ==> ProfileGet(r.st.db, other) == ProfileGet(st.db, other))
            && r.resp == ShowProfile(p.(avatar := Some(location))))
  {
    if '.' in filename && user in st.db.accounts {
      var location := AvatarPath(user, Extension(filename).value);
      ProfileGetAfterUpdate(st.db, user, None, None, Some(location), other);
    }
  }

  /** The delete action changes nothing unless the confirmation equals `user`.
      Confirmed for a `user` without an account, it raises and changes nothing.
      Confirmed for a user with a stored avatar, it removes `user`'s account,
      profile and token and ends the caller's session (whoever the caller is);
      other users keep their accounts, profiles and tokens, and the home page then sends
      the caller to login. */
  lemma DeleteActionRequiresConfirmation(st: State, h: Hasher, user: string, token: string,
                                         confirmation: Option<string>, password: string, other: string)
    requires Consistent(st.db)
    requires CachedProfile(st.cache, token).Some?
    ensures var r := UserProfile(st, h, user, Some(token), Post, DeleteAccount(confirmation));
      && (confirmation != Some(user) ==>
            r == Step(st, ShowProfile(CachedProfile(st.cache, token).value)))
      && (confirmation == Some(user) && user !in st.db.accounts ==>
            r == Step(st, Response(ServerError, KeepCookies)))
      && (confirmation == Some(user) && user in st.db.accounts
          && ProfileGet(st.db, user).value.avatar.Some? ==>
            && r.st.db.accounts == st.db.accounts - {user}
            && ProfileGet(r.st.db, user).None?
            && !AccountAuth(r.st.db, h, user, password)
            && TokenGet(r.st.db, user).None?
            && r.st.cache == st.cache[token := None]
            && (other != user ==> ProfileGet(r.st.db, other) == ProfileGet(st.db, other))
            && (other != user ==> TokenGet(r.st.db, other) == TokenGet(st.db, other))
            && r.resp == Response(Redirect(RootUrl), KeepCookies)
            && Home(r.st, Some(token)).page == Redirect(LoginUrl))
  {
    if confirmation == Some(user) && user in st.db.accounts {
      ProfileGetAfterDelete(st.db, h, user, password, other);
      DeleteRaisesWithoutAvatar(st.db, user);
    }
  }

  /** A confirmed delete of a user with no stored avatar removes both of its
      rows, and no other user's, and then raises: the token store and the cache are left as they were, so the
      caller's session still resolves and the home page routes it as before. */
  lemma DeleteActionRaisesWithoutAvatar(st: State, h: Hasher, user: string, token: string,
                                        password: string, other: string)
    requires Consistent(st.db)
    requires CachedProfile(st.cache, token).Some? && user in st.db.accounts
    requires ProfileGet(st.db, user).value.avatar.None?
    ensures var r := UserProfile(st, h, user, Some(token), Post, DeleteAccount(Some(user)));
      && r.st.db.accounts == st.db.accounts - {user}
      && ProfileGet(r.st.db, user).None?
      && !AccountAuth(r.st.db, h, user, password)
      && r.st.db.tokens == st.db.tokens
      && r.st.cache == st.cache
      && (other != user ==> ProfileGet(r.st.db, other) == ProfileGet(st.db, other))
      && r.resp == Response(ServerError, KeepCookies)
      && Home(r.st, Some(token)) == Home(st, Some(token))
  {
    ProfileGetAfterDelete(st.db, h, user, password, other);
    DeleteRaisesWithoutAvatar(st.db, user);
  }

  /** A user who registers and at once deletes their own account gets an error:
      the rows are gone, but the token stays stored and the session stays cached,
      so the home page still sends that cookie to the deleted user's profile. */
  lemma RegisterThenDeleteRaises(st: State, h: Hasher, username: string, password: string, ch: Choices)
    requires Consistent(st.db) && ChoicesFor(st, ch)
    requires ProfileGet(st.db, username).None?
    ensures var st1 := Login(st, h, Post, Some("register"), username, password, ch).st;
      var r := UserProfile(st1, h, username, Some(ch.token), Post, DeleteAccount(Some(username)));
      && r.resp == Response(ServerError, KeepCookies)
      && username !in r.st.db.accounts
      && TokenGet(r.st.db, username) == Some(ch.token)
      && Home(r.st, Some(ch.token)).page == Redirect(ProfileUrl(username))
  {
    RegisterCreatesSession(st, h, username, password, ch, username);
    LoginPreservesConsistent(st, h, Post, Some("register"), username, password, ch);
    var st1 := Login(st, h, Post, Some("register"), username, password, ch).st;
    DeleteActionRaisesWithoutAvatar(st1, h, username, ch.token, password, username);
  }

}

=== FILE: wrappers.dfy ===
/** Optional values: Python's `None` next to a present value. */
module Wrappers {

  datatype Option<+T> = None | Some(value: T)

}
